=== FILE: README.md ===
# Argo crop advisor: client pages and prediction service

Argo is a small web application for crop advice. A React client offers these pages:

- a home page with a "Predict Your Crop" button;
- login and signup forms;
- a dashboard that is guarded by App's `auth` flag;
- a contact form with client-side validation;
- a prediction form.

The prediction form posts seven soil and weather numbers to a Flask service. The service answers with the crop its trained model predicts.

This project models the logic of those pages and of the service:

- **How the token is checked.** App's mount-time check (`if (token)`) and Home's stricter `fetchToken` check, which rejects the sentinels "null" and "undefined" and blank strings.
- **Routing.** The route table, the dashboard redirect guard and the home page's predict button.
- **The client session as one state machine** (`Session.Session`). Its state is the stored token, App's `auth`, Home's `isAuthenticated`, the current path, and a trace of the effects the pages issue. Its transitions:
  - the first load;
  - `fetchToken`;
  - a storage event;
  - `navigate`;
  - `setAuth`;
  - `handleLogin`, as a request step on the login page and a settle step on any page.
- **Login.** The effects of `handleLogin` for each fetch outcome. The page's `ToastProvider` is modelled as a class whose dismissal timers fire in order.
- **Signup.** The `handleSignup` error and navigation behaviour.
- **Contact.** The validation rules. This covers:
  - JavaScript's `trim` whitespace set;
  - `.length` counting UTF-16 code units;
  - the email pattern `/^[A-Z0-9._%+-]+@[A-Z0-9.-]+\.[A-Z]{2,}$/i`, shown equivalent to a linear scan;
  - the change and submit handlers.
- **Predict.** The page's form state, the request body, and how each reply is displayed.
- **The Flask service.** `GET /` and `POST /predict`:
  - 400 for missing keys;
  - 500 with the exception text;
  - 200 with the first label.

  The trained model is a parameter.

Shared values live in two modules:

- `Web` holds JSON properties that may be missing or `null`, fetch outcomes, the `||` fallback, what `localStorage.setItem` stores, and the effect trace.
- `JsString` holds the string semantics.

React runs a child's mount effect before its parent's. The Dashboard guard therefore runs before App's token check has set `auth`. The model keeps that order: loading the application directly at "/dashboard" always ends at "/login" (`Session.FirstLoadAtDashboard`).

App's mount check (`client/src/App.jsx`, lines 16-17) is plain truthiness. `Home.ChecksDisagreeExactlyOn` characterises exactly where it and Home's check differ.

A login request and its reply are two steps (`Session.Session.SubmitLogin`, `Session.Session.SettleLogin`). The reply may settle on any page. Home's flag is refreshed only by Home's own checks, so a reply that settles while Home is shown leaves the flag stale (`Session.LoginSettlesAfterLeaving`). Navigating to the path already shown keeps that page mounted, so its mount effect does not run again and the flag stays stale.

In the application as wired, Login calls `useToast()` outside its own `ToastProvider`, and the context has no default value. So `addToast` is `undefined`, and every call to it throws. `Login.LoginEffects` takes this as a parameter. The session uses the wired behaviour: an ok reply stores the token and sets `auth`, then the success toast call throws. The `catch` block's own toast call throws out of the handler, and the delayed navigation is never scheduled (`Login.ThrowingToastStopsTheHandler`).

## Model

| member | source | states |
|---|---|---|
| Web.OrElse | client/src/pages/Login.jsx:212 | `x \|\| fallback` on a JSON property: the property's text when it is a non-empty string; the fallback when it is missing, `null` or "" |
| Web.StorageText | client/src/pages/Login.jsx:202 | `localStorage.setItem` stores the string form: the text itself, "undefined" for a missing property, "null" for `null` |
| JsString.TrimStart | client/src/pages/Home.jsx:16 | the result is a suffix of the input; every removed character is trimmable; the result does not start with a trimmable character |
| JsString.TrimEnd | client/src/pages/Home.jsx:16 | the result is a prefix of the input; every removed character is trimmable; the result does not end with a trimmable character |
| JsString.Trim | client/src/pages/contact.jsx:27 | `trim()` is an infix of its input; everything cut off before and after it is trimmable; it does not start or end with a trimmable character |
| JsString.IsTrimmable | client/src/pages/Home.jsx:16 | the characters `trim()` strips: the WhiteSpace and LineTerminator code points of ECMA-262 |
| JsString.TrimmableIsWhitespace | client/src/pages/Home.jsx:16 | printable ASCII is never stripped; space, tab, line feed and carriage return are; no code point above U+FFFF is |
| JsString.IsBlank | client/src/pages/contact.jsx:27 | every character is one `trim()` strips; `JsString.TrimEmptyIffBlank` links it to `!s.trim()` |
| JsString.TrimEmptyIffBlank | client/src/pages/contact.jsx:27 | `!s.trim()` holds iff every character is ECMAScript whitespace or a line terminator |
| JsString.Utf16Length | client/src/pages/contact.jsx:38 | `.length` lies between the number of code points and twice that: equal to the count when all code points are in the BMP, and twice it when none is |
| JsString.Utf16LengthCountsPairs | client/src/pages/contact.jsx:38 | `.length` is the number of code points plus the number of code points above U+FFFF |
| App.SeesToken | client/src/App.jsx:16-17 | the mount check fails exactly for a missing token and for the empty string |
| App.RouteFor | client/src/App.jsx:23-30 | a page is rendered iff the path is one of the five routes; "/", "/login", "/signup" and "/predict" render Home, Login, Signup and Predict; only "/dashboard" renders the dashboard, and it carries `auth` |
| App.OnlyDashboardSeesAuth | client/src/App.jsx:24-28 | every route other than "/dashboard" renders the same page whatever `auth` is (in particular, "/predict" has no guard) |
| App.RoutesAreDistinct | client/src/App.jsx:24-28 | distinct routes render distinct pages |
| Home.HasUsableToken | client/src/pages/Home.jsx:16 | the token is accepted iff it is present, is not exactly "null" or "undefined", and has a non-whitespace character |
| Home.PredictTarget | client/src/pages/Home.jsx:30-38 | the button leads to "/predict" iff authenticated, and to "/login" iff not |
| Home.AbsentTokenIsRejected | client/src/pages/Home.jsx:16 | with no stored token, the user is not authenticated |
| Home.BlankTokenIsRejected | client/src/pages/Home.jsx:16 | a whitespace-only token is rejected |
| Home.PaddedSentinelsAreAccepted | client/src/pages/Home.jsx:16 | " null" and "undefined " are accepted, because the sentinels are compared before trimming |
| Home.HomeImpliesApp | client/src/pages/Home.jsx:16 | every token Home accepts is truthy for App's mount check |
| Home.ChecksDisagreeExactlyOn | client/src/App.jsx:16-17 | App accepts and Home rejects exactly on "null", "undefined" and non-empty blank strings |
| Home.AppDoesNotImplyHome | client/src/App.jsx:16-17 | concrete tokens App accepts and Home rejects: "null", "undefined", "  " |
| Dashboard.GuardRedirect | client/src/pages/Dashboard.jsx:7-11 | the guard navigates iff `auth` is false, and then to "/login" |
| Login.TryBlock | client/src/pages/Login.jsx:189-213 | the `try` block throws iff the request fails or `addToast` throws; a throw after the request is at a toast call, which is then its last call; it makes at most one toast call, and none when the request fails |
| Login.LoginEffects | client/src/pages/Login.jsx:189-216 | `setAuth(true)` is called iff the reply is ok; the delayed navigation is scheduled iff the reply is ok and `addToast` does not throw; when it throws, the last call is the `catch` block's toast |
| Login.StateChangesPrecedeRequests | client/src/pages/Login.jsx:198-216 | whether or not `addToast` throws, storage and `setAuth` change only on an ok reply, and always before any toast or delayed navigation |
| Login.OneToastPerOutcome | client/src/pages/Login.jsx:198-216 | when `addToast` returns normally, each outcome requests exactly one toast: "success" with the success text iff ok; otherwise "error" with the server message, the fallback, or the exception text |
| Login.ThrowingToastStopsTheHandler | client/src/pages/Login.jsx:198-216 | when `addToast` throws, an ok reply still first stores the token and sets `auth`; no navigation is scheduled; there are two toast calls (one when the request itself failed); the last is the `catch` block's |
| Login.WithoutId | client/src/pages/Login.jsx:135 | the dismissal filter keeps exactly the toasts whose id differs, and never grows the list |
| Login.WithoutIdAppend | client/src/pages/Login.jsx:135 | the filter distributes over concatenation, so the kept toasts keep their order |
| Login.WithoutAbsentId | client/src/pages/Login.jsx:135 | dismissing an id no toast carries leaves the list unchanged |
| Login.AddThenDismiss | client/src/pages/Login.jsx:131-137 | a toast with a fresh id is exactly undone by its own timer |
| Login.SameIdToastsLeaveTogether | client/src/pages/Login.jsx:132-135 | two toasts created in the same millisecond share an id and leave at the first of their timers |
| Login.AfterTimers | client/src/pages/Login.jsx:134-136 | once the listed timers have fired, exactly the toasts whose id has no timer among them remain |
| Login.AfterTimersAppend | client/src/pages/Login.jsx:134-136 | the timers filter toast by toast, so the toasts left keep their order |
| Login.AllToastsAreDismissed | client/src/pages/Login.jsx:131-137 | once every pending timer has fired, no toast is left |
| Login.ToastList.constructor | client/src/pages/Login.jsx:129 | the provider starts with no toasts and no timers |
| Login.ToastList.AddToast | client/src/pages/Login.jsx:131-137 | the toast is appended (its kind defaults to "default") and its timer is queued; every shown toast still has a timer pending |
| Login.ToastList.DismissDue | client/src/pages/Login.jsx:134-136 | the oldest timer fires and removes its id's toasts; the invariant is kept |
| Signup.ErrorAfter | client/src/pages/Signup.jsx:23-31 | an ok reply keeps the previous error; not ok shows the server message or "Signup failed"; an exception shows the fixed text |
| Signup.FailureShowsMessage | client/src/pages/Signup.jsx:26-31 | a failed signup always leaves a non-empty message; a successful one leaves the message untouched |
| Signup.SignupForm.constructor | client/src/pages/Signup.jsx:6-8 | email, password and error start empty |
| Signup.SignupForm.SetEmail | client/src/pages/Signup.jsx:6 | the email field takes the typed value |
| Signup.SignupForm.SetPassword | client/src/pages/Signup.jsx:7 | the password field takes the typed value |
| Signup.SignupForm.HandleSignup | client/src/pages/Signup.jsx:11-32 | posts exactly the email and password; ok alerts, then navigates to "/login"; otherwise only the error changes |
| Contact.EmailShape | client/src/pages/contact.jsx:31 | the pattern as a split into local part, "@", domain, "." and at least two letters; any matching address has at least six characters |
| Contact.MatchesEmail | client/src/pages/contact.jsx:31 | the linear scan accepts only addresses that match the pattern |
| Contact.FirstIndex | client/src/pages/contact.jsx:31 | the first position of a character, or none when it is absent |
| Contact.LastIndex | client/src/pages/contact.jsx:31 | the last position of a character, or none when it is absent |
| Contact.SplitIsUnique | client/src/pages/contact.jsx:31 | any split that matches the pattern puts the "@" at its first occurrence and the "." at its last |
| Contact.MatchesEmailIffShape | client/src/pages/contact.jsx:31 | the linear scan accepts exactly the strings the regular expression matches |
| Contact.ShapeIsNotBlank | client/src/pages/contact.jsx:28-34 | an address that matches the pattern is never blank |
| Contact.PaddedAddressIsInvalid | client/src/pages/contact.jsx:31 | leading or trailing whitespace makes an address fail the pattern, since it is tested untrimmed |
| Contact.LeadingSpaceExample | client/src/pages/contact.jsx:31 | "a@b.co" matches and " a@b.co" does not |
| Contact.ContactData.With | client/src/pages/contact.jsx:45 | `{ ...prev, [name]: value }` sets that field and keeps the others |
| Contact.RequiredRule | client/src/pages/contact.jsx:27 | a required field reports its message iff its value is whitespace only |
| Contact.EmailRule | client/src/pages/contact.jsx:28-34 | an email error is reported iff the value does not match the pattern: "Email is required." when blank, otherwise "Invalid email address." |
| Contact.MessageRule | client/src/pages/contact.jsx:37-39 | a message error is reported iff the value is blank or shorter than 10 UTF-16 units; the blank message takes precedence |
| Contact.Validate | client/src/pages/contact.jsx:24-42 | for each of the four fields, an error is reported iff its rule fails, with the exact message |
| Contact.Acceptable | client/src/pages/contact.jsx:24-42 | a submittable form, field by field; its email has at least six characters and its message at least five code points |
| Contact.ValidateEmptyIffAcceptable | client/src/pages/contact.jsx:24-42 | no error is reported iff every field is acceptable, stated independently of the rules |
| Contact.BlankMessageIsMissing | client/src/pages/contact.jsx:37 | ten spaces are reported as "Message is required.", not as too short |
| Contact.AstralMessageIsLongEnough | client/src/pages/contact.jsx:37-39 | the message rule reports nothing for five non-BMP characters: they already count as ten |
| Contact.Shown | client/src/pages/contact.jsx:54 | the errors state holds exactly the reported fields, each with its message |
| Contact.ContactForm.constructor | client/src/pages/contact.jsx:14-22 | the form starts with empty fields, no errors, and not submitted |
| Contact.ContactForm.HandleChange | client/src/pages/contact.jsx:44-47 | a change sets only that field and clears only that field's error, to `null` |
| Contact.ContactForm.HandleSubmit | client/src/pages/contact.jsx:49-65 | sends iff validation reports nothing; sending resets the form, clears the errors and sets `submitted`; a refusal changes only the errors, to a non-empty set |
| CropServer.Home | server/app.py:12-14 | `GET /` answers 200 with the banner |
| CropServer.Features | server/app.py:26-28 | the feature row holds the seven values in the fixed column order |
| CropServer.Occurs | server/app.py:23 | `key in text` on a string: `key` occurs as a substring |
| CropServer.OccursIffSplit | server/app.py:23 | `key in text` holds iff `text` is some text, then `key`, then more text |
| CropServer.HasAllKeys | server/app.py:23 | the key test: every required key is a key of the object, a string element of the array, or a substring of the string |
| CropServer.HasAllKeysMeans | server/app.py:23 | on an object the test is inclusion of the required keys in its keys; on an array, inclusion in its string elements; a string that passes is at least as long as "temperature" |
| CropServer.Predict | server/app.py:16-35 | the status is 200, 400 or 500. 400 ("Missing required fields") iff the key test fails on an object, array or string. 500 with the exception text for an unreadable body, for an array or string that passes the key test, for a model that raises, and for an empty prediction. 200 iff the model yields a non-empty label list, and then the body is its first label |
| CropServer.NonObjectBodies | server/app.py:22-26 | `[]` and `"x"` get 400; an array of all seven key names passes the key test and gets 500 |
| CropServer.FeatureOrderListsRequiredKeys | server/app.py:22-28 | the column order lists each required key exactly once |
| CropServer.MissingKeyIgnoresModel | server/app.py:22-24 | with a key missing, the answer is 400 whatever the model |
| CropServer.ExtraKeysAreIgnored | server/app.py:22-28 | bodies that agree on the seven required keys get the same answer |
| Predict.InitialForm | client/src/pages/Predict.jsx:5-13 | the form has exactly the seven keys, all empty |
| Predict.RequestBody | client/src/pages/Predict.jsx:30-38 | the posted body has exactly the service's required keys, each the `Number` of its field |
| Predict.PredictForm.constructor | client/src/pages/Predict.jsx:5-16 | the form starts with the initial fields, no prediction and no error |
| Predict.PredictForm.HandleChange | client/src/pages/Predict.jsx:19-21 | a change sets only that key, and the key set is kept |
| Predict.PredictForm.BeginSubmit | client/src/pages/Predict.jsx:24-38 | on a form whose `required` inputs are all filled in (the browser fires the submit event only then), the submission clears the error and the prediction, then builds the body from the form; no posted value is empty |
| Predict.PredictForm.Receive | client/src/pages/Predict.jsx:40-56 | an ok reply sets only the prediction; any other outcome sets only the error (the reply's error, the fallback, or the exception text) |
| Predict.Submit | client/src/pages/Predict.jsx:24-57 | after a whole submission of a filled-in form, what is shown depends only on the outcome, no posted value is empty, and the form is unchanged |
| Predict.AfterReply | client/src/pages/Predict.jsx:49-55 | an error is shown iff the outcome is not ok, and then no prediction is shown: the reply's `error` or "Prediction failed" for a non-ok reply, "Something went wrong. Try again." for an exception; an ok reply shows its `predicted_crop` |
| Predict.AsFetch | client/src/pages/Predict.jsx:41-49 | a plain-text body makes `response.json()` throw; a JSON body is ok iff its status is 2xx; the crop or error reaches the page as `predicted_crop` or `error` |
| Predict.BodyPassesKeyCheck | client/src/pages/Predict.jsx:30-38 | the page's body is never answered with 400, and the service's feature row is the form's values in column order |
| Predict.EndToEnd | server/app.py:30-35 | the page shows the model's first label; or numpy's index error for an empty prediction; or the model's exception text (the fallback when that text is empty) |
| Session.Landing | client/src/pages/Dashboard.jsx:7-11 | a navigation ends at its target unless it is a visit to "/dashboard" without `auth`, which ends at "/login" |
| Session.Session.constructor | client/src/App.jsx:13-18 | first load: the page's mount effect runs before App's check; App sets `auth` iff the stored token is truthy; a deep link to "/dashboard" lands at "/login" |
| Session.Session.FetchToken | client/src/pages/Home.jsx:12-23 | Home's flag is overwritten from the stored token alone |
| Session.Session.StorageChangedElsewhere | client/src/pages/Home.jsx:26 | a storage event re-runs Home's check only while Home is shown; App's `auth` does not follow |
| Session.Session.Navigate | client/src/App.jsx:23-30 | navigating records the move; moving to a different path runs the target's mount effect (Home re-reads the token, the dashboard without `auth` redirects), while navigating to the path already shown re-runs nothing and leaves Home's flag as it was |
| Session.Session.PredictClick | client/src/pages/Home.jsx:30-38 | exactly one navigation, decided by Home's flag: to "/predict" iff it is set. While the flag is in sync, that means iff the stored token is usable |
| Session.Session.SetAuth | client/src/pages/Dashboard.jsx:7-11 | clearing `auth` while on the dashboard re-runs the guard and redirects to "/login" |
| Session.Session.SubmitLogin | client/src/pages/Login.jsx:186-194 | on the login page, the request carries exactly the email and password, and one more reply is pending |
| Session.Session.SettleLogin | client/src/pages/Login.jsx:196-216 | a pending reply settles on whatever page is shown. The trace grows by exactly the wired handler's calls. Only an ok reply stores the token (the string "undefined" when missing) and sets `auth`. The path and Home's flag are untouched |
| Session.FirstLoadAtDashboard | client/src/pages/Dashboard.jsx:7-11 | a first load at "/dashboard" always ends at "/login", even with a truthy token stored |
| Session.LoginWithoutToken | client/src/pages/Login.jsx:202 | an ok reply without a token stores "undefined" and sets `auth`, yet Home's button then leads to "/login" |
| Session.LoginWithToken | client/src/pages/Home.jsx:16 | after a login with a usable token, Home's button leads to "/predict" and the dashboard can be shown |
| Session.LoginSettlesAfterLeaving | client/src/pages/Home.jsx:12-26 | a usable token stored by a reply that settles while Home is shown is not seen by Home, even after navigating to "/" again: the button still leads to "/login" |

## Left out

- The authentication service that the login and signup forms post to (`server/server.js`) is not part of this model. Its replies are parameters (`Fetch` outcomes).
- `fetchUnsplashImage.js` and the community page are not part of this model. Neither is the Navbar, whose source is not available.
- The markup, styling and animations of every page are not modelled.
- `fetch`, `response.json()` and `alert` are replaced by the outcome a handler receives (ok, not ok, or thrown) and by entries in the effect trace. So are `localStorage`, `console.log` and the network.
- Clocks are not modelled:
  - `Date.now()` toast ids are supplied by the caller;
  - `setTimeout` delays are not simulated: pending dismissals fire in queue order (`ToastList.DismissDue`), and the delayed post-login navigation is recorded with its 500 ms delay.
- A call to `addToast` is recorded as the call made. In the wired application it throws (see above), so the `ToastList` class describes a provider that Login's handler never reaches.
- The delayed navigation, when scheduled, would call `onNavigate`, which App does not pass. That call is not modelled.
- The rejected promise that the wired `handleLogin` returns is not modelled.
- `Number(...)` on the prediction form's fields is not interpreted (`Predict.Num`), and neither is the trained model. The model is a function parameter that returns labels or an exception message, so numpy arrays and joblib loading are not modelled.
- A JSON array is modelled by its string elements only, the only ones `in` can match. A JSON number, boolean or `null`, and a body that is not JSON, are folded into `Unreadable` with the text of the exception they raise.
- The TypeError texts for indexing a list or a string with a key (`CropServer.ListIndexError`, `CropServer.StringIndexError`) are those of recent CPython versions; older versions word them differently.
- JSON property values other than strings are not modelled: `Field` is missing, `null`, or a string. Serialisation errors inside `jsonify` are not modelled either.
- React Router's case-insensitive and trailing-slash path matching is not modelled: `App.RouteFor` compares paths exactly.
- The statement order of `validate` is not kept: each field's rule is applied on its own. No rule reads another field's result, so the resulting map is the same.
- The browser's value sanitization of the `type="email"` input (it strips leading and trailing ASCII whitespace) is not modelled: `Contact.PaddedAddressIsInvalid` and `Contact.LeadingSpaceExample` are statements about `validate`, and from the page only padding outside ASCII, such as U+00A0, reaches it.
- Home's `storage` listener is modelled only for events that reach Home while it is shown. Listener registration and removal are not modelled.

=== FILE: app.dfy ===
/** The application shell: the mount-time token check and the route table. */
module App {
  import opened Web

  /** `if (token)` on the stored token: `getItem` gives `null` or a string,
      and the only falsy string is the empty one. */
  predicate SeesToken(stored: Option<string>)
    ensures !SeesToken(stored) <==> stored == None || stored == Some("")
  {
    stored.Some? && stored.value != ""
  }

  /** The pages the router can show; only the dashboard is handed `auth`. */
  datatype Page = HomePage | LoginPage | SignupPage | DashboardPage(auth: bool) | PredictPage

  const RoutePaths: set<string> := {"/", "/login", "/signup", "/dashboard", "/predict"}

  /** The page the route table renders at `path` while App's flag is `auth`;
      `None` when no route matches. */
  function RouteFor(path: string, auth: bool): (r: Option<Page>)
    ensures r.Some? <==> path in RoutePaths
    ensures r.Some? && r.value.DashboardPage? <==> path == "/dashboard"
    ensures r.Some? && r.value.DashboardPage? ==> r.value.auth == auth
    ensures path == "/" ==> r == Some(HomePage)
    ensures path == "/login" ==> r == Some(LoginPage)
    ensures path == "/signup" ==> r == Some(SignupPage)
    ensures path == "/predict" ==> r == Some(PredictPage)
  {
    if path == "/" then Some(HomePage)
    else if path == "/login" then Some(LoginPage)
    else if path == "/signup" then Some(SignupPage)
    else if path == "/dashboard" then Some(DashboardPage(auth))
    else if path == "/predict" then Some(PredictPage)
    else None
  }

  /** Every path but "/dashboard" renders the same page whatever `auth` is:
      in particular "/predict" is not guarded. */
  lemma OnlyDashboardSeesAuth(path: string, a: bool, b: bool)
    requires path != "/dashboard"
    ensures RouteFor(path, a) == RouteFor(path, b)
  {
  }

  /** Distinct routes render distinct pages. */
  lemma RoutesAreDistinct(p: string, q: string, auth: bool)
    requires p in RoutePaths && q in RoutePaths && p != q
    ensures RouteFor(p, auth) != RouteFor(q, auth)
  {
  }
}

=== FILE: contact.dfy ===
/** The contact page: field validation with its fixed messages, the email
    pattern `/^[A-Z0-9._%+-]+@[A-Z0-9.-]+\.[A-Z]{2,}$/i`, and the change and
    submit handlers of the form. */
module Contact {
  import opened Web
  import opened JsString

  // ---------------------------------------------------------------------
  // The email pattern

  /** Letters matched by `[A-Z]` under the `i` flag without `u`: the ASCII
      letters of either case, and no others. */
  predicate IsLetter(c: char) {
    ('A' <= c <= 'Z') || ('a' <= c <= 'z')
  }

  predicate IsDigit(c: char) {
    '0' <= c <= '9'
  }

  /** `[A-Z0-9._%+-]` under the `i` flag. */
  predicate IsLocalChar(c: char) {
    IsLetter(c) || IsDigit(c) || c == '.' || c == '_' || c == '%' || c == '+' || c == '-'
  }

  /** `[A-Z0-9.-]` under the `i` flag. */
  predicate IsDomainChar(c: char) {
    IsLetter(c) || IsDigit(c) || c == '.' || c == '-'
  }

  predicate AllLocal(s: string) {
    forall i :: 0 <= i < |s| ==> IsLocalChar(s[i])
  }

  predicate AllDomain(s: string) {
    forall i :: 0 <= i < |s| ==> IsDomainChar(s[i])
  }

  predicate AllLetters(s: string) {
    forall i :: 0 <= i < |s| ==> IsLetter(s[i])
  }

  /** `s` splits as a non-empty local part before position `at` ("@"), a
      non-empty domain up to position `dot` ("."), and at least two letters
      after it. */
  predicate SplitsAt(s: string, at: nat, dot: nat) {
    && 0 < at && at + 1 < dot && dot + 3 <= |s|
    && s[at] == '@' && s[dot] == '.'
    && AllLocal(s[..at]) && AllDomain(s[at + 1..dot]) && AllLetters(s[dot + 1..])
  }

  /** The whole of `s` matches the pattern: it splits for some choice of
      the "@" and the "." (the domain may itself contain dots). */
  predicate EmailShape(s: string)
    ensures EmailShape(s) ==> |s| >= 6
  {
    exists at: nat, dot: nat | at < dot < |s| :: SplitsAt(s, at, dot)
  }

  /** The first position of `c` in `s`. */
  function FirstIndex(s: string, c: char): (r: Option<nat>)
    ensures r.Some? ==> r.value < |s| && s[r.value] == c
    ensures r.Some? ==> forall i :: 0 <= i < r.value ==> s[i] != c
    ensures r.None? ==> forall i :: 0 <= i < |s| ==> s[i] != c
  {
    if s == [] then None
    else if s[0] == c then Some(0)
    else match FirstIndex(s[1..], c)
      case None => None
      case Some(k) => Some(k + 1)
  }

  /** The last position of `c` in `s`. */
  function LastIndex(s: string, c: char): (r: Option<nat>)
    ensures r.Some? ==> r.value < |s| && s[r.value] == c
    ensures r.Some? ==> forall i :: r.value < i < |s| ==> s[i] != c
    ensures r.None? ==> forall i :: 0 <= i < |s| ==> s[i] != c
  {
    if s == [] then None
    else if s[|s| - 1] == c then Some(|s| - 1)
    else LastIndex(s[..|s| - 1], c)
  }

  /** The pattern test as a scan: the "@" must be the first one in `s` and
      the "." the last one, since neither may occur in the part before the
      "@" or after the ".". */
  function MatchesEmail(s: string): (b: bool)
    ensures b ==> EmailShape(s)
  {
    match (FirstIndex(s, '@'), LastIndex(s, '.'))
    case (Some(at), Some(dot)) => SplitsAt(s, at, dot)
    case _ => false
  }

  /** Any split puts the "@" first and the "." last. */
  lemma SplitIsUnique(s: string, at: nat, dot: nat)
    requires SplitsAt(s, at, dot)
    ensures FirstIndex(s, '@') == Some(at)
    ensures LastIndex(s, '.') == Some(dot)
  {
    forall i | 0 <= i < at
      ensures s[i] != '@'
    {
      assert s[i] == s[..at][i];
    }
    forall i | dot < i < |s|
      ensures s[i] != '.'
    {
      assert s[i] == s[dot + 1..][i - dot - 1];
    }
  }

  /** The scan accepts exactly the strings of the pattern. */
  lemma MatchesEmailIffShape(s: string)
    ensures MatchesEmail(s) <==> EmailShape(s)
  {
    if EmailShape(s) {
      var at: nat, dot: nat :| at < dot < |s| && SplitsAt(s, at, dot);
      SplitIsUnique(s, at, dot);
    }
  }

  /** A matching address is never blank: it contains "@". */
  lemma ShapeIsNotBlank(s: string)
    ensures EmailShape(s) ==> !IsBlank(s)
  {
    if EmailShape(s) {
      var at: nat, dot: nat :| at < dot < |s| && SplitsAt(s, at, dot);
      assert !IsTrimmable(s[at]);
    }
  }

  /** The pattern is tested on the untrimmed value: a leading or trailing
      whitespace character makes the address invalid. */
  lemma PaddedAddressIsInvalid(s: string)
    requires s != [] && (IsTrimmable(s[0]) || IsTrimmable(s[|s| - 1]))
    ensures !EmailShape(s)
  {
    forall at: nat, dot: nat | 0 < at < dot && dot + 3 <= |s|
      ensures !SplitsAt(s, at, dot)
    {
      assert s[..at][0] == s[0];
      assert s[dot + 1..][|s| - dot - 2] == s[|s| - 1];
    }
  }

  /** A concrete pair: an address and the same address with a leading space. */
  lemma LeadingSpaceExample()
    ensures EmailShape("a@b.co")
    ensures !EmailShape(" a@b.co")
  {
    var s := "a@b.co";
    assert s[..1] == "a" && s[2..3] == "b" && s[4..] == "co";
    assert SplitsAt(s, 1, 3);
    PaddedAddressIsInvalid(" a@b.co");
  }

  // ---------------------------------------------------------------------
  // Validation

  datatype ContactField = Name | Email | Subject | Message

  datatype ContactData = ContactData(name: string, email: string, subject: string, message: string)
  {
    function Get(f: ContactField): string {
      match f
      case Name => name
      case Email => email
      case Subject => subject
      case Message => message
    }

    /** `{ ...data, [f]: value }`. */
    function With(f: ContactField, value: string): (r: ContactData)
      ensures r.Get(f) == value
      ensures forall g :: g != f ==> r.Get(g) == Get(g)
    {
      match f
      case Name => this.(name := value)
      case Email => this.(email := value)
      case Subject => this.(subject := value)
      case Message => this.(message := value)
    }
  }

  const EmptyForm := ContactData("", "", "", "")

  const NameRequired := "Name is required."
  const EmailRequired := "Email is required."
  const EmailInvalid := "Invalid email address."
  const SubjectRequired := "Subject is required."
  const MessageRequired := "Message is required."
  const MessageTooShort := "Message must be at least 10 characters."
  const MinMessageLength := 10

  /** The rule for a required field: its message exactly when the value is
      blank. */
  function RequiredRule(value: string, message: string): (e: Option<string>)
    ensures e.Some? <==> forall i :: 0 <= i < |value| ==> IsTrimmable(value[i])
    ensures e.Some? ==> e.value == message
  {
    if IsBlank(value) then Some(message) else None
  }

  /** The email rule: a blank value is reported as missing, any other value
      that fails the pattern as invalid. */
  function EmailRule(email: string): (e: Option<string>)
    ensures e.Some? <==> !EmailShape(email)
    ensures e.Some? ==> e.value == (if IsBlank(email) then EmailRequired else EmailInvalid)
  {
    MatchesEmailIffShape(email);
    ShapeIsNotBlank(email);
    if IsBlank(email) then Some(EmailRequired)
    else if !MatchesEmail(email) then Some(EmailInvalid)
    else None
  }

  /** The message rule: a blank value is reported as missing, any other value
      shorter than ten UTF-16 code units (untrimmed) as too short. */
  function MessageRule(message: string): (e: Option<string>)
    ensures e.Some? <==> IsBlank(message) || Utf16Length(message) < MinMessageLength
    ensures e.Some? ==> e.value == (if IsBlank(message) then MessageRequired else MessageTooShort)
  {
    if IsBlank(message) then Some(MessageRequired)
    else if Utf16Length(message) < MinMessageLength then Some(MessageTooShort)
    else None
  }

  /** The rule applied to field `f`. */
  function Rule(d: ContactData, f: ContactField): Option<string> {
    match f
    case Name => RequiredRule(d.name, NameRequired)
    case Email => EmailRule(d.email)
    case Subject => RequiredRule(d.subject, SubjectRequired)
    case Message => MessageRule(d.message)
  }

  const AllFields: set<ContactField> := {Name, Email, Subject, Message}

  /** `validate`: one message per failing field. Each field's rule looks at
      that field alone, so the order the rules run in does not matter. */
  function Validate(d: ContactData): (errors: map<ContactField, string>)
    ensures Name in errors <==> IsBlank(d.name)
    ensures Name in errors ==> errors[Name] == NameRequired
    ensures Email in errors <==> !EmailShape(d.email)
    ensures Email in errors ==> errors[Email] == (if IsBlank(d.email) then EmailRequired else EmailInvalid)
    ensures Subject in errors <==> IsBlank(d.subject)
    ensures Subject in errors ==> errors[Subject] == SubjectRequired
    ensures Message in errors <==> IsBlank(d.message) || Utf16Length(d.message) < MinMessageLength
    ensures Message in errors ==> errors[Message] == (if IsBlank(d.message) then MessageRequired else MessageTooShort)
  {
    map f | f in AllFields && Rule(d, f).Some? :: Rule(d, f).value
  }

  /** What a submittable form is, stated field by field. */
  predicate Acceptable(d: ContactData)
    ensures Acceptable(d) ==> |d.email| >= 6 && |d.message| >= MinMessageLength / 2
  {
    && (exists i :: 0 <= i < |d.name| && !IsTrimmable(d.name[i]))
    && EmailShape(d.email)
    && (exists i :: 0 <= i < |d.subject| && !IsTrimmable(d.subject[i]))
    && (exists i :: 0 <= i < |d.message| && !IsTrimmable(d.message[i]))
    && Utf16Length(d.message) >= MinMessageLength
  }

  /** Validation reports nothing exactly for acceptable forms. */
  lemma ValidateEmptyIffAcceptable(d: ContactData)
    ensures Validate(d) == map[] <==> Acceptable(d)
  {
    var errors := Validate(d);
    if errors == map[] {
      assert Name !in errors && Email !in errors && Subject !in errors && Message !in errors;
    } else {
      var f :| f in errors;
      assert !Acceptable(d) by {
        match f
        case Name =>
        case Email =>
        case Subject =>
        case Message =>
      }
    }
  }

  /** Ten spaces pass the length rule but are still reported as missing. */
  lemma BlankMessageIsMissing()
    ensures Validate(ContactData("n", "a@b.co", "s", "          "))[Message] == MessageRequired
  {
    var blank := "          ";
    assert forall i :: 0 <= i < |blank| ==> IsTrimmable(blank[i]);
  }

  /** Five characters outside the Basic Multilingual Plane already count as
      ten: the message rule reports nothing for them. */
  lemma AstralMessageIsLongEnough()
    ensures MessageRule("\U{1F33E}\U{1F33E}\U{1F33E}\U{1F33E}\U{1F33E}") == None
  {
    var m := "\U{1F33E}\U{1F33E}\U{1F33E}\U{1F33E}\U{1F33E}";
    assert !IsTrimmable(m[0]);
    assert forall i :: 0 <= i < |m| ==> m[i] > '\U{FFFF}';
  }

  // ---------------------------------------------------------------------
  // The form

  /** The `errors` state holds a message per field, or the `null` that a
      change stores for its field. */
  function Shown(errors: map<ContactField, string>): (r: map<ContactField, Option<string>>)
    ensures r.Keys == errors.Keys
    ensures forall f :: f in r ==> r[f] == Some(errors[f])
  {
    map f | f in errors :: Some(errors[f])
  }

  class ContactForm {
    var data: ContactData
    var errors: map<ContactField, Option<string>>
    var submitted: bool

    constructor ()
      ensures data == EmptyForm && errors == map[] && !submitted
    {
      data, errors, submitted := EmptyForm, map[], false;
    }

    /** `handleChange`: set the named field and clear only its error. */
    method HandleChange(f: ContactField, value: string)
      modifies this
      ensures data == old(data).With(f, value)
      ensures errors == old(errors)[f := None]
      ensures submitted == old(submitted)
    {
      data := data.With(f, value);
      errors := errors[f := None];
    }

    /** `handleSubmit`: send exactly when validation reports nothing, which
        is exactly when the form is acceptable. On failure only `errors`
        changes, to the reported messages; on success the fields are reset,
        the errors cleared and `submitted` set. */
    method HandleSubmit() returns (sent: bool)
      modifies this
      ensures sent <==> Validate(old(data)) == map[]
      ensures sent ==> data == EmptyForm && errors == map[] && submitted
      ensures !sent ==> data == old(data) && submitted == old(submitted)
      ensures !sent ==> errors == Shown(Validate(old(data))) && errors != map[]
    {
      var validationErrors := Validate(data);
      sent := validationErrors == map[];
      if !sent {
        errors := Shown(validationErrors);
      } else {
        submitted := true;
        data := EmptyForm;
        errors := map[];
      }
    }
  }
}

=== FILE: dashboard.dfy ===
/** The dashboard's redirect guard. */
module Dashboard {
  import opened Web

  /** The navigation the guard effect issues when it runs with `auth`. */
  function GuardRedirect(auth: bool): (r: Option<string>)
    ensures r.Some? <==> !auth
    ensures r.Some? ==> r.value == "/login"
  {
    if !auth then Some("/login") else None
  }
}

=== FILE: home.dfy ===
/** The home page's view of the session: its token predicate, and where the
    "Predict Your Crop" button leads. */
module Home {
  import opened Web
  import opened JsString
  import App

  /** The condition `fetchToken` tests on the stored token: present, not the
      strings "null" or "undefined", and not blank once trimmed. The sentinel
      comparisons are made on the untrimmed value. */
  predicate HasUsableToken(stored: Option<string>)
    ensures HasUsableToken(stored) <==>
      && stored.Some?
      && stored.value != "null" && stored.value != "undefined"
      && exists i :: 0 <= i < |stored.value| && !IsTrimmable(stored.value[i])
  {
    && stored.Some?
    && stored.value != ""
    && stored.value != "null"
    && stored.value != "undefined"
    && !IsBlank(stored.value)
  }

  /** The one path `handlePredictClick` navigates to. */
  function PredictTarget(isAuthenticated: bool): (path: string)
    ensures path == "/predict" <==> isAuthenticated
    ensures path == "/login" <==> !isAuthenticated
  {
    if isAuthenticated then "/predict" else "/login"
  }

  /** Nothing stored means unauthenticated. */
  lemma AbsentTokenIsRejected()
    ensures !HasUsableToken(None)
  {
  }

  /** A whitespace-only token (space, tab, no-break space, ...) is rejected. */
  lemma BlankTokenIsRejected(v: string)
    requires forall i :: 0 <= i < |v| ==> IsTrimmable(v[i])
    ensures !HasUsableToken(Some(v))
  {
  }

  /** The sentinels are compared before trimming, so padded sentinels pass. */
  lemma PaddedSentinelsAreAccepted()
    ensures HasUsableToken(Some(" null"))
    ensures HasUsableToken(Some("undefined "))
  {
    assert !IsTrimmable(" null"[1]);
    assert !IsTrimmable("undefined "[0]);
  }

  /** Home's test is stricter than App's: whatever Home accepts, App accepts. */
  lemma HomeImpliesApp(stored: Option<string>)
    ensures HasUsableToken(stored) ==> App.SeesToken(stored)
  {
  }

  /** The values on which the two checks disagree are exactly the two
      sentinel strings and the non-empty blank strings. */
  lemma {:induction false} ChecksDisagreeExactlyOn(v: string)
    ensures App.SeesToken(Some(v)) && !HasUsableToken(Some(v)) <==>
      v == "null" || v == "undefined" || (v != "" && IsBlank(v))
  {
  }

  /** Concrete witnesses that App's test does not imply Home's. */
  lemma AppDoesNotImplyHome()
    ensures App.SeesToken(Some("null")) && !HasUsableToken(Some("null"))
    ensures App.SeesToken(Some("undefined")) && !HasUsableToken(Some("undefined"))
    ensures App.SeesToken(Some("  ")) && !HasUsableToken(Some("  "))
  {
  }
}

=== FILE: js_string.dfy ===
/** The parts of JavaScript's string semantics the pages rely on:
    `String.prototype.trim`, the truthiness of `s.trim()`, and `length`,
    which counts UTF-16 code units. Strings are sequences of Unicode scalar
    values. */
module JsString {

  /** The WhiteSpace and LineTerminator code points of ECMA-262 (sections 12.2
      and 12.3), which `trim` strips from both ends. */
  predicate IsTrimmable(c: char) {
    || c == '\t' || c == '\n' || c == '\U{B}' || c == '\U{C}' || c == '\r'
    || c == ' ' || c == '\U{A0}' || c == '\U{1680}'
    || ('\U{2000}' <= c <= '\U{200A}')
    || c == '\U{2028}' || c == '\U{2029}' || c == '\U{202F}' || c == '\U{205F}'
    || c == '\U{3000}' || c == '\U{FEFF}'
  }

  /** Printable ASCII is never trimmed; the ASCII space, tab and line
      breaks are; nothing above the Basic Multilingual Plane is. */
  lemma TrimmableIsWhitespace(c: char)
    ensures '!' <= c <= '~' ==> !IsTrimmable(c)
    ensures c == ' ' || c == '\t' || c == '\n' || c == '\r' ==> IsTrimmable(c)
    ensures IsTrimmable(c) ==> c <= '\U{FEFF}'
  {
  }

  /** `s` with its leading trimmable characters removed. */
  function TrimStart(s: string): (r: string)
    ensures |r| <= |s| && r == s[|s| - |r|..]
    ensures r != [] ==> !IsTrimmable(r[0])
    ensures forall i :: 0 <= i < |s| - |r| ==> IsTrimmable(s[i])
  {
    if s != [] && IsTrimmable(s[0]) then TrimStart(s[1..]) else s
  }

  /** `s` with its trailing trimmable characters removed. */
  function TrimEnd(s: string): (r: string)
    ensures |r| <= |s| && r == s[..|r|]
    ensures r != [] ==> !IsTrimmable(r[|r| - 1])
    ensures forall i :: |r| <= i < |s| ==> IsTrimmable(s[i])
  {
    if s != [] && IsTrimmable(s[|s| - 1]) then TrimEnd(s[..|s| - 1]) else s
  }

  /** `r` is `s[a..b]` and every character of `s` outside `[a, b)` is
      trimmable. */
  ghost predicate CutAt(s: string, r: string, a: int, b: int) {
    && 0 <= a <= b <= |s| && r == s[a..b]
    && (forall i :: 0 <= i < a ==> IsTrimmable(s[i]))
    && (forall i :: b <= i < |s| ==> IsTrimmable(s[i]))
  }

  /** Cutting a trimmable prefix off `s` and then a trimmable suffix off
      what is left cuts `s` at both ends. */
  lemma {:induction false} CutBothEnds(s: string, t: string, r: string)
    requires |t| <= |s| && t == s[|s| - |t|..]
    requires forall i :: 0 <= i < |s| - |t| ==> IsTrimmable(s[i])
    requires |r| <= |t| && r == t[..|r|]
    requires forall i :: |r| <= i < |t| ==> IsTrimmable(t[i])
    ensures CutAt(s, r, |s| - |t|, |s| - |t| + |r|)
  {
    var a := |s| - |t|;
    assert forall i :: a + |r| <= i < |s| ==> s[i] == t[i - a];
  }

  /** `s.trim()`: the part of `s` left once the trimmable characters at
      both ends are cut off. */
  function Trim(s: string): (r: string)
    ensures exists a, b :: CutAt(s, r, a, b)
    ensures r != [] ==> !IsTrimmable(r[0]) && !IsTrimmable(r[|r| - 1])
  {
    var t := TrimStart(s);
    var r := TrimEnd(t);
    CutBothEnds(s, t, r);
    r
  }

  /** Every character of `s` is trimmable. */
  predicate IsBlank(s: string) {
    forall i :: 0 <= i < |s| ==> IsTrimmable(s[i])
  }

  /** `!s.trim()` holds exactly for the blank strings. */
  lemma TrimEmptyIffBlank(s: string)
    ensures Trim(s) == "" <==> IsBlank(s)
  {
    var r := Trim(s);
    var a, b :| CutAt(s, r, a, b);
    assert r != [] ==> r[0] == s[a];
  }

  /** The positions of `s` holding a code point above U+FFFF. */
  function AstralPositions(s: string): set<nat> {
    set i: nat | i < |s| && s[i] > '\U{FFFF}'
  }

  /** `s.length`: a code point above U+FFFF is a surrogate pair and counts
      twice. */
  function Utf16Length(s: string): (n: nat)
    ensures |s| <= n <= 2 * |s|
    ensures (forall i :: 0 <= i < |s| ==> s[i] <= '\U{FFFF}') ==> n == |s|
    ensures (forall i :: 0 <= i < |s| ==> s[i] > '\U{FFFF}') ==> n == 2 * |s|
  {
    if s == [] then 0
    else Utf16Length(s[..|s| - 1]) + (if s[|s| - 1] <= '\U{FFFF}' then 1 else 2)
  }

  /** The length is the number of code points plus the number of surrogate
      pairs. */
  lemma {:induction false} Utf16LengthCountsPairs(s: string)
    ensures Utf16Length(s) == |s| + |AstralPositions(s)|
  {
    if s != [] {
      var init := s[..|s| - 1];
      Utf16LengthCountsPairs(init);
      assert AstralPositions(s) ==
        AstralPositions(init) + (if s[|s| - 1] > '\U{FFFF}' then {|s| - 1} else {});
    }
  }
}

=== FILE: login.dfy ===
/** The login page: the effects of `handleLogin` for each fetch outcome, and
    the toast list of its `ToastProvider`. */
module Login {
  import opened Web

  /** The fields of the login reply the handler reads. */
  datatype LoginReply = LoginReply(token: Field, message: Field)

  const TokenKey := "token"
  const SuccessToast := "Login successful! Redirecting..."
  const FailureFallback := "Login failed"
  const ExceptionToast := "Something went wrong. Please try again."
  const RedirectDelayMs: nat := 500

  /** What the `try` block of `handleLogin` does with `outcome`: the calls it
      makes, in order, and whether it throws. It throws when the request
      itself fails, and at its first `addToast` call when `addToastThrows`. */
  datatype TryRun = TryRun(effects: seq<Effect>, threw: bool)

  function TryBlock(outcome: Fetch<LoginReply>, addToastThrows: bool): (run: TryRun)
    ensures run.threw <==> outcome.Exception? || addToastThrows
    ensures run.threw && !outcome.Exception? ==> run.effects != [] && run.effects[|run.effects| - 1].ToastRequested?
    ensures forall i, j :: 0 <= i < j < |run.effects| ==>
              !(run.effects[i].ToastRequested? && run.effects[j].ToastRequested?)
    ensures outcome.Exception? ==> run.effects == []
  {
    match outcome
    case Ok(reply) =>
      var beforeToast := [StorageWritten(TokenKey, StorageText(reply.token)), AuthSet(true),
                          ToastRequested(SuccessToast, "success")];
      if addToastThrows then TryRun(beforeToast, true)
      else TryRun(beforeToast + [NavigationScheduled("/", RedirectDelayMs)], false)
    case NotOk(reply) => TryRun([ToastRequested(OrElse(reply.message, FailureFallback), "error")], addToastThrows)
    case Exception => TryRun([], true)
  }

  /** The calls `handleLogin` makes once the request settles, in source
      order: the `try` block up to where it stops, then the `catch` block's
      toast when it threw. With `addToastThrows` the `catch` block's own call
      throws out of the handler. A toast or a delayed navigation is recorded
      as the call made, not as its effect. */
  function LoginEffects(outcome: Fetch<LoginReply>, addToastThrows: bool): (effects: seq<Effect>)
    ensures AuthSet(true) in effects <==> outcome.Ok?
    ensures NavigationScheduled("/", RedirectDelayMs) in effects <==> outcome.Ok? && !addToastThrows
    ensures effects != []
    ensures addToastThrows ==> effects[|effects| - 1] == ToastRequested(ExceptionToast, "error")
  {
    var run := TryBlock(outcome, addToastThrows);
    run.effects + (if run.threw then [ToastRequested(ExceptionToast, "error")] else [])
  }

  predicate ChangesState(e: Effect) {
    e.StorageWritten? || e.AuthSet?
  }

  predicate IsRequest(e: Effect) {
    e.ToastRequested? || e.NavigationScheduled?
  }

  /** Every storage write and `setAuth` precedes every toast or navigation
      request, and state is changed only on an ok reply, whether or not
      `addToast` throws. */
  lemma StateChangesPrecedeRequests(outcome: Fetch<LoginReply>, addToastThrows: bool)
    ensures var effects := LoginEffects(outcome, addToastThrows);
      forall i, j :: 0 <= i < j < |effects| && IsRequest(effects[i]) ==> !ChangesState(effects[j])
    ensures var effects := LoginEffects(outcome, addToastThrows);
      (exists i :: 0 <= i < |effects| && ChangesState(effects[i])) <==> outcome.Ok?
  {
    var effects := LoginEffects(outcome, addToastThrows);
    if outcome.Ok? {
      assert ChangesState(effects[0]);
    }
  }

  /** In the application as wired, `addToast` throws: an ok reply still
      stores the token and sets `auth`, but the delayed navigation is never
      scheduled, and every outcome but a failed request makes two toast
      calls, the second being the `catch` block's. */
  lemma ThrowingToastStopsTheHandler(outcome: Fetch<LoginReply>)
    ensures var effects := LoginEffects(outcome, true);
      && (outcome.Ok? ==> effects[..2] == [StorageWritten(TokenKey, StorageText(outcome.body.token)), AuthSet(true)])
      && (forall e :: e in effects ==> !e.NavigationScheduled?)
      && |set i | 0 <= i < |effects| && effects[i].ToastRequested?| == (if outcome.Exception? then 1 else 2)
      && effects[|effects| - 1] == ToastRequested(ExceptionToast, "error")
  {
    var effects := LoginEffects(outcome, true);
    match outcome
    case Ok(_) =>
      assert (set i | 0 <= i < |effects| && effects[i].ToastRequested?) == {2, 3};
    case NotOk(_) =>
      assert (set i | 0 <= i < |effects| && effects[i].ToastRequested?) == {0, 1};
    case Exception =>
      assert (set i | 0 <= i < |effects| && effects[i].ToastRequested?) == {0};
  }

  /** When `addToast` returns normally, each outcome requests exactly one
      toast: "success" on an ok reply, and "error" otherwise, carrying the
      server's message or the fallback. */
  lemma OneToastPerOutcome(outcome: Fetch<LoginReply>)
    ensures var effects := LoginEffects(outcome, false);
      && |set i | 0 <= i < |effects| && effects[i].ToastRequested?| == 1
      && (forall e :: e in effects && e.ToastRequested? ==>
            && (e.kind == "success" <==> outcome.Ok?)
            && (!outcome.Ok? ==> e.kind == "error")
            && (outcome.Ok? ==> e.message == SuccessToast)
            && (outcome.NotOk? ==> e.message == OrElse(outcome.body.message, FailureFallback))
            && (outcome.Exception? ==> e.message == ExceptionToast))
  {
    var effects := LoginEffects(outcome, false);
    if outcome.Ok? {
      assert (set i | 0 <= i < |effects| && effects[i].ToastRequested?) == {2};
    } else {
      assert (set i | 0 <= i < |effects| && effects[i].ToastRequested?) == {0};
    }
  }

  /** One entry of the toast display. */
  datatype Toast = Toast(id: int, message: string, kind: string)

  /** `toasts.filter((toast) => toast.id !== id)`. */
  function WithoutId(toasts: seq<Toast>, id: int): (r: seq<Toast>)
    ensures forall t :: t in r <==> t in toasts && t.id != id
    ensures |r| <= |toasts|
  {
    if toasts == [] then []
    else (if toasts[0].id == id then [] else [toasts[0]]) + WithoutId(toasts[1..], id)
  }

  /** The filter works toast by toast: removal from a concatenation is the
      concatenation of the removals, so the kept toasts stay in order. */
  lemma {:induction false} WithoutIdAppend(a: seq<Toast>, b: seq<Toast>, id: int)
    ensures WithoutId(a + b, id) == WithoutId(a, id) + WithoutId(b, id)
  {
    if a == [] {
      assert a + b == b;
    } else {
      assert (a + b)[1..] == a[1..] + b;
      WithoutIdAppend(a[1..], b, id);
    }
  }

  /** Removing an id no toast carries changes nothing. */
  lemma {:induction false} WithoutAbsentId(toasts: seq<Toast>, id: int)
    requires forall t :: t in toasts ==> t.id != id
    ensures WithoutId(toasts, id) == toasts
  {
    if toasts != [] {
      WithoutAbsentId(toasts[1..], id);
    }
  }

  /** A toast added under an id no other toast carries is exactly undone by
      its own dismissal. */
  lemma AddThenDismiss(toasts: seq<Toast>, t: Toast)
    requires forall u :: u in toasts ==> u.id != t.id
    ensures WithoutId(toasts + [t], t.id) == toasts
  {
    WithoutIdAppend(toasts, [t], t.id);
    WithoutAbsentId(toasts, t.id);
  }

  /** Two toasts added in the same millisecond share an id: the first
      dismissal removes both. */
  lemma SameIdToastsLeaveTogether()
    ensures WithoutId([Toast(7, "a", "success"), Toast(7, "b", "error")], 7) == []
  {
  }

  /** The toast list after each pending dismissal, in `timers` order, has
      fired: exactly the toasts whose id has no timer among them are left, in
      their order. */
  function AfterTimers(toasts: seq<Toast>, timers: seq<int>): (r: seq<Toast>)
    ensures forall t :: t in r <==> t in toasts && t.id !in timers
    decreases |timers|
  {
    if timers == [] then toasts
    else
      assert forall x :: x in timers <==> x == timers[0] || x in timers[1..];
      AfterTimers(WithoutId(toasts, timers[0]), timers[1..])
  }

  /** The timers filter toast by toast, so the toasts that are left keep
      their order: the result for a concatenation is the concatenation of
      the results. */
  lemma {:induction false} AfterTimersAppend(a: seq<Toast>, b: seq<Toast>, timers: seq<int>)
    ensures AfterTimers(a + b, timers) == AfterTimers(a, timers) + AfterTimers(b, timers)
    decreases |timers|
  {
    if timers != [] {
      WithoutIdAppend(a, b, timers[0]);
      AfterTimersAppend(WithoutId(a, timers[0]), WithoutId(b, timers[0]), timers[1..]);
    }
  }

  /** When every toast has a pending dismissal, the list is empty once all of
      them have fired. */
  lemma AllToastsAreDismissed(toasts: seq<Toast>, timers: seq<int>)
    requires forall t :: t in toasts ==> t.id in timers
    ensures AfterTimers(toasts, timers) == []
  {
    NoMemberMeansEmpty(AfterTimers(toasts, timers));
  }

  lemma NoMemberMeansEmpty<T>(s: seq<T>)
    ensures (forall x :: x !in s) ==> s == []
  {
    if s != [] {
      assert s[0] in s;
    }
  }

  /** The state of `ToastProvider`: the toasts shown, and the ids of the
      3000 ms dismissal timers still pending, in the order they will fire
      (equal delays fire in the order they were scheduled). */
  class ToastList {
    var toasts: seq<Toast>
    var timers: seq<int>

    /** Every toast shown still has a dismissal pending. */
    ghost predicate Valid()
      reads this
    {
      forall t :: t in toasts ==> t.id in timers
    }

    constructor ()
      ensures Valid()
      ensures toasts == [] && timers == []
    {
      toasts := [];
      timers := [];
    }

    /** `addToast(message, type = "default")` with the id `Date.now()`
        supplied by the caller. */
    method AddToast(id: int, message: string, kind: Option<string>)
      requires Valid()
      modifies this
      ensures Valid()
      ensures toasts == old(toasts) + [Toast(id, message, if kind.Some? then kind.value else "default")]
      ensures timers == old(timers) + [id]
    {
      var kindOrDefault := if kind.Some? then kind.value else "default";
      toasts := toasts + [Toast(id, message, kindOrDefault)];
      timers := timers + [id];
    }

    /** The oldest pending dismissal timer fires. */
    method DismissDue()
      requires Valid()
      requires timers != []
      modifies this
      ensures Valid()
      ensures toasts == WithoutId(old(toasts), old(timers)[0])
      ensures timers == old(timers)[1..]
    {
      var id := timers[0];
      toasts := WithoutId(toasts, id);
      timers := timers[1..];
      forall t | t in toasts
        ensures t.id in timers
      {
        assert t in old(toasts) && t.id != id;
      }
    }
  }
}

=== FILE: predict.dfy ===
/** The crop prediction page: its form state, the request body it posts to
    the prediction service, and how the reply is shown. */
module Predict {
  import opened Web
  import CropServer

  /** The form's keys, in the order they are declared. */
  const FormKeys: seq<string> := ["N", "P", "K", "temperature", "humidity", "ph", "rainfall"]

  /** `Number(text)`, kept as the text it converts. Two texts that `Number`
      maps to the same value ("1" and "01") stay distinct here; no property
      below depends on telling them apart or not. */
  datatype Num = NumberOf(text: string)

  /** The fields of the prediction reply the handler reads. */
  datatype PredictReply = PredictReply(predicted_crop: Field, error: Field)

  const FailureFallback := "Prediction failed"
  const ExceptionMessage := "Something went wrong. Try again."

  /** The initial `formData`: every key holds "". */
  function InitialForm(): (form: map<string, string>)
    ensures forall k :: k in form <==> k in FormKeys
    ensures forall k :: k in form ==> form[k] == ""
  {
    map["N" := "", "P" := "", "K" := "", "temperature" := "", "humidity" := "", "ph" := "", "rainfall" := ""]
  }

  /** `formattedData`: every key of the form, its value converted by `Number`. */
  function RequestBody(form: map<string, string>): (body: map<string, Num>)
    requires forall k :: k in FormKeys ==> k in form
    ensures body.Keys == CropServer.RequiredKeys
    ensures forall k :: k in body ==> body[k] == NumberOf(form[k])
  {
    map[ "N" := NumberOf(form["N"]), "P" := NumberOf(form["P"]), "K" := NumberOf(form["K"]),
         "temperature" := NumberOf(form["temperature"]), "humidity" := NumberOf(form["humidity"]),
         "ph" := NumberOf(form["ph"]), "rainfall" := NumberOf(form["rainfall"]) ]
  }

  /** What the page shows: `prediction` and `error`. */
  datatype Display = Display(prediction: Field, error: Option<string>)

  /** The display once a submission has settled with `outcome` (both parts
      were cleared when it started). */
  function AfterReply(outcome: Fetch<PredictReply>): (d: Display)
    ensures d.error.None? <==> outcome.Ok?
    ensures outcome.Ok? ==> d.prediction == outcome.body.predicted_crop
    ensures !outcome.Ok? ==> d.prediction == Null && d.error.value != ""
    ensures outcome.NotOk? ==> d.error == Some(OrElse(outcome.body.error, FailureFallback))
    ensures outcome.Exception? ==> d.error == Some(ExceptionMessage)
  {
    match outcome
    case Ok(reply) => Display(reply.predicted_crop, None)
    case NotOk(reply) => Display(Null, Some(OrElse(reply.error, FailureFallback)))
    case Exception => Display(Null, Some(ExceptionMessage))
  }

  class PredictForm {
    var formData: map<string, string>
    var prediction: Field
    var error: Option<string>

    /** The form holds exactly its seven keys. */
    ghost predicate Valid()
      reads this
    {
      forall k :: k in formData <==> k in FormKeys
    }

    constructor ()
      ensures Valid()
      ensures formData == InitialForm() && prediction == Null && error == None
    {
      formData, prediction, error := InitialForm(), Null, None;
    }

    /** `handleChange` from the input named `name` (the inputs are named
        after the form's own keys): only that key changes. */
    method HandleChange(name: string, value: string)
      requires Valid() && name in formData
      modifies this`formData
      ensures Valid()
      ensures formData == old(formData)[name := value]
    {
      formData := formData[name := value];
    }

    /** The synchronous start of `handleSubmit`: clear `error` and
        `prediction`, then build the body that is posted. Every input is a
        `required` number field, so the browser fires the submit event only
        when none of them is empty. */
    method BeginSubmit() returns (body: map<string, Num>)
      requires Valid()
      requires forall k :: k in formData ==> formData[k] != ""
      modifies this`prediction, this`error
      ensures prediction == Null && error == None
      ensures body == RequestBody(formData)
      ensures forall k :: k in body ==> body[k].text != ""
    {
      error := None;
      prediction := Null;
      body := RequestBody(formData);
    }

    /** The rest of `handleSubmit`, once the request has settled: an ok reply
        sets `prediction` and leaves `error` alone, anything else sets `error`. */
    method Receive(outcome: Fetch<PredictReply>)
      modifies this`prediction, this`error
      ensures outcome.Ok? ==> prediction == outcome.body.predicted_crop && error == old(error)
      ensures !outcome.Ok? ==> prediction == old(prediction) && error == AfterReply(outcome).error
      ensures outcome.NotOk? ==> error == Some(OrElse(outcome.body.error, FailureFallback))
      ensures outcome.Exception? ==> error == Some(ExceptionMessage)
    {
      match outcome {
        case Ok(reply) => prediction := reply.predicted_crop;
        case NotOk(reply) => error := Some(OrElse(reply.error, FailureFallback));
        case Exception => error := Some(ExceptionMessage);
      }
    }
  }

  /** A whole submission: whatever was shown before, the display afterwards
      is `AfterReply(outcome)`, and an ok reply leaves no error. */
  method Submit(form: PredictForm, outcome: Fetch<PredictReply>) returns (body: map<string, Num>)
    requires form.Valid()
    requires forall k :: k in form.formData ==> form.formData[k] != ""
    modifies form
    ensures form.Valid() && form.formData == old(form.formData)
    ensures body == RequestBody(form.formData)
    ensures forall k :: k in body ==> body[k].text != ""
    ensures Display(form.prediction, form.error) == AfterReply(outcome)
  {
    body := form.BeginSubmit();
    form.Receive(outcome);
  }

  /** How `fetch` and `response.json()` present a service response to the
      page: `response.ok` for the 2xx statuses, and a thrown error for a body
      that is not JSON. */
  function AsFetch(response: CropServer.Response<string>): (r: Fetch<PredictReply>)
    ensures r.Exception? <==> response.body.PlainText?
    ensures r.Ok? <==> !response.body.PlainText? && 200 <= response.status < 300
    ensures response.body.PredictedCrop? ==> !r.Exception? && r.body == PredictReply(Text(response.body.crop), Absent)
    ensures response.body.ErrorMessage? ==> !r.Exception? && r.body == PredictReply(Absent, Text(response.body.error))
  {
    var reply :=
      match response.body
      case PredictedCrop(crop) => Some(PredictReply(Text(crop), Absent))
      case ErrorMessage(e) => Some(PredictReply(Absent, Text(e)))
      case PlainText(_) => None;
    if reply.None? then Exception
    else if 200 <= response.status < 300 then Ok(reply.value)
    else NotOk(reply.value)
  }

  /** The page's body always passes the service's key check, and the
      service's feature row holds the form's values in its column order. */
  lemma {:induction false} BodyPassesKeyCheck(form: map<string, string>, model: seq<Num> -> CropServer.ModelOutput<string>)
    requires forall k :: k in FormKeys ==> k in form
    ensures CropServer.Predict(CropServer.JsonObject(RequestBody(form)), model).status != 400
    ensures CropServer.Features(RequestBody(form)) ==
      [ NumberOf(form["N"]), NumberOf(form["P"]), NumberOf(form["K"]),
        NumberOf(form["temperature"]), NumberOf(form["humidity"]),
        NumberOf(form["ph"]), NumberOf(form["rainfall"]) ]
  {
    var body := RequestBody(form);
    assert CropServer.RequiredKeys <= body.Keys;
  }

  /** End to end: the page shows the model's first label, or the text of
      the exception the model raised (the fallback when that text is empty),
      or numpy's index error when the model predicts nothing. */
  lemma EndToEnd(form: map<string, string>, model: seq<Num> -> CropServer.ModelOutput<string>)
    requires forall k :: k in FormKeys ==> k in form
    ensures var body := RequestBody(form);
      var output := model(CropServer.Features(body));
      var shown := AfterReply(AsFetch(CropServer.Predict(CropServer.JsonObject(body), model)));
      && (output.Labels? && |output.labels| > 0 ==> shown == Display(Text(output.labels[0]), None))
      && (output.Labels? && |output.labels| == 0 ==> shown == Display(Null, Some(CropServer.EmptyResult)))
      && (output.Raised? && output.message != "" ==> shown == Display(Null, Some(output.message)))
      && (output.Raised? && output.message == "" ==> shown == Display(Null, Some(FailureFallback)))
  {
    BodyPassesKeyCheck(form, model);
  }
}

=== FILE: server.dfy ===
/** The Flask prediction service: `GET /` and `POST /predict`. Feature values
    are opaque (`V`) and the trained model is a parameter: a function from the
    feature row to the labels it predicts, or to the text of the exception it
    raises. */
module CropServer {

  const RequiredKeys: set<string> := {"N", "P", "K", "temperature", "humidity", "ph", "rainfall"}

  /** The column order of the feature row. */
  const FeatureOrder: seq<string> := ["N", "P", "K", "temperature", "humidity", "ph", "rainfall"]

  /** The request body. `key in data` works on a JSON object (its keys), on
      a JSON array (`strings`: the string elements, the only ones equal to
      a key) and on a JSON string (its substrings). Anything else (a number,
      a boolean, `null`, a body that is not JSON) makes `get_json` or the
      key test raise, with the text of that exception. */
  datatype Payload<V> =
    | JsonObject(fields: map<string, V>)
    | JsonArray(strings: set<string>)
    | JsonString(text: string)
    | Unreadable(reason: string)

  /** `k` occurs in `t` as a substring, which is what `k in t` tests. */
  predicate Occurs(k: string, t: string) {
    exists i, j | 0 <= i <= j <= |t| :: t[i..j] == k
  }

  /** `k in t` holds exactly when `t` is some text, then `k`, then more text. */
  lemma OccursIffSplit(k: string, t: string)
    ensures Occurs(k, t) <==> exists p, q :: t == p + k + q
  {
    if Occurs(k, t) {
      var i, j :| 0 <= i <= j <= |t| && t[i..j] == k;
      assert t == t[..i] + k + t[j..];
    }
    if exists p, q :: t == p + k + q {
      var p, q :| t == p + k + q;
      assert t[|p|..|p| + |k|] == k;
    }
  }

  /** `all(key in data for key in required_keys)`. */
  predicate HasAllKeys<V>(payload: Payload<V>)
    requires !payload.Unreadable?
  {
    match payload
    case JsonObject(fields) => forall k :: k in RequiredKeys ==> k in fields
    case JsonArray(strings) => forall k :: k in RequiredKeys ==> k in strings
    case JsonString(text) => forall k :: k in RequiredKeys ==> Occurs(k, text)
  }

  /** The key test is set inclusion for an object's keys and an array's
      strings, and every key occurring as a substring for a string. */
  lemma HasAllKeysMeans<V>(payload: Payload<V>)
    requires !payload.Unreadable?
    ensures payload.JsonObject? ==> (HasAllKeys(payload) <==> RequiredKeys <= payload.fields.Keys)
    ensures payload.JsonArray? ==> (HasAllKeys(payload) <==> RequiredKeys <= payload.strings)
    ensures payload.JsonString? && HasAllKeys(payload) ==> |payload.text| >= |"temperature"|
  {
    if payload.JsonString? && HasAllKeys(payload) {
      assert "temperature" in RequiredKeys;
      var i, j :| 0 <= i <= j <= |payload.text| && payload.text[i..j] == "temperature";
    }
  }

  /** What `model.predict` does with one feature row. */
  datatype ModelOutput<L> = Labels(labels: seq<L>) | Raised(message: string)

  datatype ReplyBody<L> = PlainText(text: string) | PredictedCrop(crop: L) | ErrorMessage(error: string)

  datatype Response<L> = Response(status: nat, body: ReplyBody<L>)

  const Banner := "Flask API is running!"
  const MissingFields := "Missing required fields"
  /** The text of the IndexError numpy raises for `[0]` on an empty result. */
  const EmptyResult := "index 0 is out of bounds for axis 0 with size 0"
  /** The TypeErrors `data['N']` raises on a list and on a string. */
  const ListIndexError := "list indices must be integers or slices, not str"
  const StringIndexError := "string indices must be integers, not 'str'"

  /** `home`: the plain-text banner. */
  function Home<L>(): (r: Response<L>)
    ensures r.status == 200 && r.body == PlainText(Banner)
  {
    Response(200, PlainText(Banner))
  }

  /** The single feature row, in the fixed column order. */
  function Features<V>(fields: map<string, V>): (row: seq<V>)
    requires RequiredKeys <= fields.Keys
    ensures |row| == |FeatureOrder|
    ensures forall i :: 0 <= i < |FeatureOrder| ==> row[i] == fields[FeatureOrder[i]]
  {
    [ fields["N"], fields["P"], fields["K"],
      fields["temperature"], fields["humidity"],
      fields["ph"], fields["rainfall"] ]
  }

  /** `predict`: 400 exactly when the key test fails, 200 with the first
      predicted label, and 500 with the exception's text when anything
      raises: reading the body, indexing a list or a string with a key, the
      model itself, or taking the first label of an empty prediction. */
  function Predict<V, L>(payload: Payload<V>, model: seq<V> -> ModelOutput<L>): (r: Response<L>)
    ensures r.status == 200 || r.status == 400 || r.status == 500
    ensures payload.Unreadable? ==> r == Response(500, ErrorMessage(payload.reason))
    ensures r.status == 400 <==> !payload.Unreadable? && !HasAllKeys(payload)
    ensures r.status == 400 ==> r.body == ErrorMessage(MissingFields)
    ensures payload.JsonArray? && HasAllKeys(payload) ==> r == Response(500, ErrorMessage(ListIndexError))
    ensures payload.JsonString? && HasAllKeys(payload) ==> r == Response(500, ErrorMessage(StringIndexError))
    ensures payload.JsonObject? && HasAllKeys(payload) && model(Features(payload.fields)).Raised? ==>
              r == Response(500, ErrorMessage(model(Features(payload.fields)).message))
    ensures payload.JsonObject? && HasAllKeys(payload) && model(Features(payload.fields)) == Labels([]) ==>
              r == Response(500, ErrorMessage(EmptyResult))
    ensures r.status == 200 <==>
              && payload.JsonObject? && RequiredKeys <= payload.fields.Keys
              && model(Features(payload.fields)).Labels?
              && |model(Features(payload.fields)).labels| > 0
    ensures r.status == 200 ==> r.body == PredictedCrop(model(Features(payload.fields)).labels[0])
    ensures r.status != 200 ==> r.body.ErrorMessage?
  {
    if payload.Unreadable? then Response(500, ErrorMessage(payload.reason))
    else if !HasAllKeys(payload) then Response(400, ErrorMessage(MissingFields))
    else
      match payload
      case JsonArray(_) => Response(500, ErrorMessage(ListIndexError))
      case JsonString(_) => Response(500, ErrorMessage(StringIndexError))
      case JsonObject(fields) =>
        match model(Features(fields))
        case Raised(message) => Response(500, ErrorMessage(message))
        case Labels(labels) =>
          if |labels| == 0 then Response(500, ErrorMessage(EmptyResult))
          else Response(200, PredictedCrop(labels[0]))
  }

  /** The column order lists every required key exactly once. */
  lemma FeatureOrderListsRequiredKeys()
    ensures |FeatureOrder| == |RequiredKeys|
    ensures forall k :: k in RequiredKeys <==> k in FeatureOrder
    ensures forall i, j :: 0 <= i < j < |FeatureOrder| ==> FeatureOrder[i] != FeatureOrder[j]
  {
  }

  /** With a required key missing the answer does not depend on the model:
      it is not called. */
  lemma MissingKeyIgnoresModel<V, L>(fields: map<string, V>, m1: seq<V> -> ModelOutput<L>, m2: seq<V> -> ModelOutput<L>)
    requires !(RequiredKeys <= fields.Keys)
    ensures Predict(JsonObject(fields), m1) == Predict(JsonObject(fields), m2)
    ensures Predict(JsonObject(fields), m1).status == 400
  {
  }

  /** Keys beyond the required seven are ignored: two bodies that agree on
      the required keys get the same answer. */
  lemma ExtraKeysAreIgnored<V, L>(f: map<string, V>, g: map<string, V>, model: seq<V> -> ModelOutput<L>)
    requires RequiredKeys <= f.Keys && RequiredKeys <= g.Keys
    requires forall k :: k in RequiredKeys ==> f[k] == g[k]
    ensures Predict(JsonObject(f), model) == Predict(JsonObject(g), model)
  {
    assert Features(f) == Features(g);
  }

  /** An empty array and a short string fail the key test like an object
      missing a key; an array or a string holding every key passes it and
      then fails when a value is read. */
  lemma NonObjectBodies<V, L>(model: seq<V> -> ModelOutput<L>)
    ensures Predict(Payload<V>.JsonArray({}), model) == Response(400, ErrorMessage(MissingFields))
    ensures Predict(Payload<V>.JsonString("x"), model) == Response(400, ErrorMessage(MissingFields))
    ensures Predict(Payload<V>.JsonArray(RequiredKeys), model).status == 500
  {
    assert !Occurs("N", "x") by {
      forall i, j | 0 <= i <= j <= 1
        ensures "x"[i..j] != "N"
      {
        if j - i == 1 {
          assert "x"[i..j][0] == 'x';
        }
      }
    }
  }
}

=== FILE: session.dfy ===
/** The client session as one state machine: the stored token, App's `auth`
    flag, the home page's `isAuthenticated` flag, the current path, and the
    trace of effects the pages have issued. App's mount check, Home's
    `fetchToken` and predict button, the dashboard guard and the login
    handler are its transitions. */
module Session {
  import opened Web
  import App
  import Home
  import Dashboard
  import Login

  /** The path a navigation to `to` ends at once the new page's mount effect
      has run: the dashboard guard sends a visit without `auth` to its redirect. */
  function Landing(to: string, auth: bool): (path: string)
    ensures path == "/dashboard" ==> auth
    ensures path == to || path == "/login"
    ensures to == "/dashboard" && !auth ==> path == "/login"
    ensures !(to == "/dashboard" && !auth) ==> path == to
  {
    var redirect := Dashboard.GuardRedirect(auth);
    if to == "/dashboard" && redirect.Some? then redirect.value else to
  }

  class Session {
    /** `localStorage.getItem("token")`. */
    var storage: Option<string>
    /** App's `auth` state. */
    var auth: bool
    /** Home's `isAuthenticated` state; meaningful while the path is "/". */
    var homeAuthenticated: bool
    /** The router's current location. */
    var path: string
    /** Login requests posted whose reply has not settled yet. */
    var pendingLogins: nat
    /** Every effect issued so far, in order. */
    var trace: seq<Effect>

    /** The dashboard is shown only while `auth` holds. */
    ghost predicate Valid()
      reads this
    {
      path == "/dashboard" ==> auth
    }

    /** While Home is shown, its flag agrees with the stored token. Home's
        own checks establish this; a login reply that settles while Home is
        shown can break it, since a write from the same document raises no
        "storage" event. */
    ghost predicate HomeInSync()
      reads this
    {
      path == "/" ==> homeAuthenticated == Home.HasUsableToken(storage)
    }

    /** The first load of the application at `startPath` with `stored` in
        storage. `auth` starts false. React runs the page's mount effect
        before App's: Home's `fetchToken`, or the dashboard guard, which
        still sees `auth == false`. App's check then promotes `auth` when the
        stored token is truthy; it never demotes it. */
    constructor (stored: Option<string>, startPath: string)
      ensures Valid() && HomeInSync()
      ensures storage == stored
      ensures auth == App.SeesToken(stored)
      ensures path == (if startPath == "/dashboard" then "/login" else startPath)
      ensures homeAuthenticated == (startPath == "/" && Home.HasUsableToken(stored))
      ensures pendingLogins == 0
      ensures trace == (if startPath == "/dashboard" then [Navigated("/login")] else [])
                       + (if App.SeesToken(stored) then [AuthSet(true)] else [])
    {
      storage := stored;
      auth := false;
      homeAuthenticated := false;
      path := startPath;
      pendingLogins := 0;
      trace := [];
      if startPath == "/" {
        homeAuthenticated := Home.HasUsableToken(stored);
      } else if startPath == "/dashboard" {
        var redirect := Dashboard.GuardRedirect(false);
        if redirect.Some? {
          trace := trace + [Navigated(redirect.value)];
          path := redirect.value;
        }
      }
      if App.SeesToken(stored) {
        auth := true;
        trace := trace + [AuthSet(true)];
      }
    }

    /** Home's `fetchToken`: overwrite the flag from the current storage
        alone, whatever the flag was before. */
    method FetchToken()
      requires path == "/"
      modifies this`homeAuthenticated
      ensures Valid() && HomeInSync()
      ensures homeAuthenticated == Home.HasUsableToken(storage)
    {
      homeAuthenticated := Home.HasUsableToken(storage);
    }

    /** Another document changes the stored token: the "storage" event
        reaches Home's listener when Home is shown; App does not listen. */
    method StorageChangedElsewhere(value: Option<string>)
      requires Valid()
      modifies this
      ensures Valid() && HomeInSync()
      ensures storage == value
      ensures homeAuthenticated == (if path == "/" then Home.HasUsableToken(value) else old(homeAuthenticated))
      ensures auth == old(auth) && path == old(path) && trace == old(trace)
      ensures pendingLogins == old(pendingLogins)
    {
      storage := value;
      if path == "/" {
        FetchToken();
      }
    }

    /** `navigate(to)`. Moving to a different path mounts the page shown
        there and runs its mount effect; navigating to the path already
        shown keeps the page mounted, so nothing re-runs and Home's flag
        keeps whatever value it had. */
    method Navigate(to: string)
      requires Valid()
      modifies this
      ensures Valid()
      ensures old(path) == "/" && to == "/" ==> (HomeInSync() <==> old(HomeInSync()))
      ensures !(old(path) == "/" && to == "/") ==> HomeInSync()
      ensures path == Landing(to, auth)
      ensures trace == old(trace) + [Navigated(to)] + (if path != to then [Navigated(path)] else [])
      ensures homeAuthenticated ==
        (if to == "/" && old(path) != "/" then Home.HasUsableToken(storage) else old(homeAuthenticated))
      ensures storage == old(storage) && auth == old(auth) && pendingLogins == old(pendingLogins)
    {
      var from := path;
      trace := trace + [Navigated(to)];
      path := to;
      if to == from {
        // the page stays mounted: no mount effect runs
      } else if to == "/" {
        homeAuthenticated := false;
        FetchToken();
      } else if to == "/dashboard" {
        var redirect := Dashboard.GuardRedirect(auth);
        if redirect.Some? {
          trace := trace + [Navigated(redirect.value)];
          path := redirect.value;
        }
      }
    }

    /** `handlePredictClick`: exactly one navigation, decided by Home's flag
        alone; that is "/predict" exactly when the stored token is usable
        only while the flag is in sync. */
    method PredictClick()
      requires Valid() && path == "/"
      modifies this
      ensures Valid()
      ensures path == Home.PredictTarget(old(homeAuthenticated))
      ensures old(HomeInSync()) ==> path == Home.PredictTarget(Home.HasUsableToken(storage))
      ensures trace == old(trace) + [Navigated(path)]
      ensures storage == old(storage) && auth == old(auth) && homeAuthenticated == old(homeAuthenticated)
      ensures pendingLogins == old(pendingLogins)
    {
      Navigate(Home.PredictTarget(homeAuthenticated));
    }

    /** `setAuth(value)`. While the dashboard is shown, a change of `auth`
        re-runs its guard, so turning `auth` off there redirects to "/login". */
    method SetAuth(value: bool)
      requires Valid()
      modifies this
      ensures Valid()
      ensures old(HomeInSync()) ==> HomeInSync()
      ensures auth == value
      ensures path == (if old(path) == "/dashboard" && !value then "/login" else old(path))
      ensures trace == old(trace) + [AuthSet(value)] + (if path != old(path) then [Navigated(path)] else [])
      ensures storage == old(storage) && homeAuthenticated == old(homeAuthenticated)
      ensures pendingLogins == old(pendingLogins)
    {
      var changed := value != auth;
      auth := value;
      trace := trace + [AuthSet(value)];
      if path == "/dashboard" && changed {
        var redirect := Dashboard.GuardRedirect(auth);
        if redirect.Some? {
          trace := trace + [Navigated(redirect.value)];
          path := redirect.value;
        }
      }
    }

    /** The synchronous start of `handleLogin` on the login page: the
        request carries exactly the email and the password, and its reply is
        now pending. The user may leave the page before it settles. */
    method SubmitLogin(email: string, password: string) returns (request: Credentials)
      requires path == "/login"
      modifies this`pendingLogins
      ensures request == Credentials(email, password)
      ensures pendingLogins == old(pendingLogins) + 1
    {
      request := Credentials(email, password);
      pendingLogins := pendingLogins + 1;
    }

    /** The rest of `handleLogin` once a pending request settles with
        `outcome`, on whatever page is shown by then. In the application as
        wired `addToast` is `undefined`, so its first call throws (see
        `Login.LoginEffects`). On an ok reply the token (or the text of
        whatever stands in for it) is stored and `auth` set; otherwise
        storage and `auth` are untouched. Home's flag is not refreshed. */
    method SettleLogin(outcome: Fetch<Login.LoginReply>)
      requires Valid() && pendingLogins > 0
      modifies this
      ensures Valid()
      ensures pendingLogins == old(pendingLogins) - 1
      ensures trace == old(trace) + Login.LoginEffects(outcome, true)
      ensures storage == (if outcome.Ok? then Some(StorageText(outcome.body.token)) else old(storage))
      ensures auth == (outcome.Ok? || old(auth))
      ensures path == old(path) && homeAuthenticated == old(homeAuthenticated)
      ensures old(path) != "/" ==> HomeInSync()
    {
      pendingLogins := pendingLogins - 1;
      ghost var effects := Login.LoginEffects(outcome, true);
      match outcome {
        case Ok(reply) =>
          assert effects == [StorageWritten(Login.TokenKey, StorageText(reply.token)), AuthSet(true),
                             ToastRequested(Login.SuccessToast, "success"), ToastRequested(Login.ExceptionToast, "error")];
          var stored := StorageText(reply.token);
          storage := Some(stored);
          trace := trace + [StorageWritten(Login.TokenKey, stored)];
          // setAuth(true): the dashboard guard only redirects when `auth` is off
          auth := true;
          trace := trace + [AuthSet(true)];
          trace := trace + [ToastRequested(Login.SuccessToast, "success"),
                            ToastRequested(Login.ExceptionToast, "error")];
        case NotOk(reply) =>
          assert effects == [ToastRequested(OrElse(reply.message, Login.FailureFallback), "error"),
                             ToastRequested(Login.ExceptionToast, "error")];
          trace := trace + [ToastRequested(OrElse(reply.message, Login.FailureFallback), "error"),
                            ToastRequested(Login.ExceptionToast, "error")];
        case Exception =>
          assert effects == [ToastRequested(Login.ExceptionToast, "error")];
          trace := trace + [ToastRequested(Login.ExceptionToast, "error")];
      }
    }
  }

  /** Opening the application directly at "/dashboard" always ends at
      "/login", even with a truthy token stored: the guard runs before App's
      mount check has set `auth`. */
  method FirstLoadAtDashboard(stored: Option<string>) returns (landed: string, auth: bool)
    ensures landed == "/login"
    ensures auth == App.SeesToken(stored)
  {
    var session := new Session(stored, "/dashboard");
    landed, auth := session.path, session.auth;
  }

  /** An ok login reply without a `token` stores the string "undefined" and
      sets `auth`; back on the home page the predict button still leads to
      "/login", because Home rejects that sentinel. */
  method LoginWithoutToken(stored: Option<string>, email: string, password: string, message: Field)
    returns (auth: bool, storedToken: Option<string>, target: string)
    ensures auth && storedToken == Some("undefined")
    ensures target == "/login"
  {
    var session := new Session(stored, "/login");
    var _ := session.SubmitLogin(email, password);
    session.SettleLogin(Ok(Login.LoginReply(Absent, message)));
    session.Navigate("/");
    session.PredictClick();
    auth, storedToken, target := session.auth, session.storage, session.path;
  }

  /** After a successful login with a usable token, the home page's predict
      button leads to "/predict" and the dashboard can be shown. */
  method LoginWithToken(stored: Option<string>, email: string, password: string, token: string)
    returns (target: string, dashboard: string)
    requires Home.HasUsableToken(Some(token))
    ensures target == "/predict"
    ensures dashboard == "/dashboard"
  {
    var session := new Session(stored, "/login");
    var _ := session.SubmitLogin(email, password);
    session.SettleLogin(Ok(Login.LoginReply(Text(token), Absent)));
    session.Navigate("/");
    session.PredictClick();
    target := session.path;
    session.Navigate("/dashboard");
    dashboard := session.path;
  }

  /** A login reply that settles after the user has gone back to the home
      page stores a usable token and sets `auth`, yet Home's flag keeps the
      value it read on mount, and navigating to "/" again while Home is shown
      does not re-read it: the predict button still leads to "/login". */
  method LoginSettlesAfterLeaving(email: string, password: string, token: string)
    returns (auth: bool, storedToken: Option<string>, target: string)
    requires Home.HasUsableToken(Some(token))
    ensures auth && storedToken == Some(token) && Home.HasUsableToken(storedToken)
    ensures target == "/login"
  {
    var session := new Session(None, "/login");
    var _ := session.SubmitLogin(email, password);
    session.Navigate("/");
    session.SettleLogin(Ok(Login.LoginReply(Text(token), Absent)));
    session.Navigate("/");
    session.PredictClick();
    auth, storedToken, target := session.auth, session.storage, session.path;
  }
}

=== FILE: signup.dfy ===
/** The signup page: its form state and how `handleSignup` maps the fetch
    outcome to an error message or a navigation. */
module Signup {
  import opened Web

  /** The field of the signup reply the handler reads. */
  datatype SignupReply = SignupReply(message: Field)

  const SuccessAlert := "Signup successful! Redirecting to login..."
  const FailureFallback := "Signup failed"
  const ExceptionMessage := "Something went wrong. Try again."

  /** The `error` shown after a submission that settled with `outcome`, when
      `prior` was shown before it. */
  function ErrorAfter(prior: string, outcome: Fetch<SignupReply>): (error: string)
    ensures outcome.Ok? ==> error == prior
    ensures outcome.NotOk? && Truthy(outcome.body.message) ==> error == outcome.body.message.s
    ensures outcome.NotOk? && !Truthy(outcome.body.message) ==> error == FailureFallback
    ensures outcome.Exception? ==> error == ExceptionMessage
  {
    match outcome
    case Ok(_) => prior
    case NotOk(reply) => OrElse(reply.message, FailureFallback)
    case Exception => ExceptionMessage
  }

  /** A failed submission always leaves a non-empty message on screen, and a
      successful one leaves the previous message untouched. */
  lemma FailureShowsMessage(prior: string, outcome: Fetch<SignupReply>)
    ensures !outcome.Ok? ==> ErrorAfter(prior, outcome) != ""
    ensures outcome.Ok? ==> ErrorAfter(prior, outcome) == prior
  {
  }

  class SignupForm {
    var email: string
    var password: string
    var error: string
    /** The alerts and navigations issued, in order. */
    var effects: seq<Effect>

    constructor ()
      ensures email == "" && password == "" && error == "" && effects == []
    {
      email, password, error, effects := "", "", "", [];
    }

    method SetEmail(value: string)
      modifies this`email
      ensures email == value
    {
      email := value;
    }

    method SetPassword(value: string)
      modifies this`password
      ensures password == value
    {
      password := value;
    }

    /** `handleSignup`, once its request has settled with `outcome`. The
        request body carries exactly the email and the password. `error` is
        not cleared first: an ok reply leaves the previous message in place,
        alerts and navigates to "/login"; otherwise `error` is overwritten
        and nothing is navigated. */
    method HandleSignup(outcome: Fetch<SignupReply>) returns (request: Credentials)
      modifies this`error, this`effects
      ensures request == Credentials(email, password)
      ensures error == ErrorAfter(old(error), outcome)
      ensures effects == old(effects) + (if outcome.Ok? then [Alerted(SuccessAlert), Navigated("/login")] else [])
    {
      request := Credentials(email, password);
      match outcome {
        case Ok(_) =>
          effects := effects + [Alerted(SuccessAlert), Navigated("/login")];
        case NotOk(reply) =>
          error := OrElse(reply.message, FailureFallback);
        case Exception =>
          error := ExceptionMessage;
      }
    }
  }
}

=== FILE: web.dfy ===
/** Values the browser pages exchange with their surroundings: storage reads,
    JSON properties read off a response, fetch outcomes and the effects a
    handler asks the browser to perform. */
module Web {

  datatype Option<T> = None | Some(value: T)

  /** A property of a parsed JSON body as a handler reads it (`data.token`,
      `data.message`, ...): missing (`undefined`), `null`, or a string. */
  datatype Field = Absent | Null | Text(s: string)

  /** True when the property is truthy in JavaScript. */
  predicate Truthy(f: Field) {
    f.Text? && f.s != ""
  }

  /** `f || fallback`: the property itself when it is truthy, else the fallback. */
  function OrElse(f: Field, fallback: string): (r: string)
    ensures Truthy(f) ==> r == f.s
    ensures !Truthy(f) ==> r == fallback
  {
    match f
    case Text(s) => if s != "" then s else fallback
    case _ => fallback
  }

  /** `String(f)`: what `localStorage.setItem` stores for the value. */
  function StorageText(f: Field): (r: string)
    ensures f.Text? ==> r == f.s
    ensures f.Absent? ==> r == "undefined"
    ensures f.Null? ==> r == "null"
  {
    match f
    case Absent => "undefined"
    case Null => "null"
    case Text(s) => s
  }

  /** What `await fetch(...)` followed by `await response.json()` yields to a
      handler: a body with `response.ok`, a body without it, or a thrown error
      (network failure or a body that is not JSON). */
  datatype Fetch<B> = Ok(body: B) | NotOk(body: B) | Exception

  /** The request body `{ email, password }` that Login and Signup post. */
  datatype Credentials = Credentials(email: string, password: string)

  /** An action a page performs on the browser, recorded in the order it is
      issued. A request (`ToastRequested`, `NavigationScheduled`) records that
      the call was made, not that it took effect. */
  datatype Effect =
    | Navigated(path: string)                        // navigate(path) of the router
    | StorageWritten(key: string, value: string)     // localStorage.setItem(key, value)
    | AuthSet(flag: bool)                            // App's setAuth(flag)
    | ToastRequested(message: string, kind: string)  // addToast(message, kind)
    | NavigationScheduled(path: string, delayMs: nat) // setTimeout(() => onNavigate(path), delayMs)
    | Alerted(message: string)                       // window.alert(message)
}
